=== FILE: README.md ===
# Time synchronisation and DDP connection manager — a Dafny model

This project models the two core pieces of a Meteor DDP client helper.

- **TimeSync** (`time_sync.dfy`, `time_sync_properties.dfy`) estimates the
  offset between the local clock and a server clock.
  - A round (`syncTime`) asks a time source up to `maxTryCount` times.
  - It turns each answered query into a measurement: an offset (`diff`) and
    half the round-trip time (`quality`).
  - From `minTryCount` on, it stops early as soon as the best measurement
    so far beats `minSyncQuality`.
  - Otherwise it keeps the best measurement only when it beats the quality
    already held.
  - `currentTime`, `isGood` and the periodic `maybeTriggerSync` decision
    read that held state.
- **DDPConnector** (`ddp_connector.dfy`, `ddp_connector_properties.dfy`)
  manages a DDP client connection.
  - It covers `connect`, `close`, `forceReconnect` and `createClient`.
  - It covers the monitor interval that reconnects after a lost socket.
  - It covers the handlers for the client's `connected`, `socket-close`,
    `failed`, `socket-error`, `message` and `info` events.

Modelling choices:

- Both components are modelled as pure functions over immutable records.
- The asynchronous time source is the sequence of its answers, each an
  `Attempt(t0, server, t1)`. The local clock readings are parameters.
- Times are exact reals.
- The connector is a state record `Conn`. Every operation or incoming event
  returns the next state and the ordered list of outputs: emitted events, the
  console line for an unobserved failure, and promise settlements.
- Each session-level connect the manager issues leaves a pending callback,
  which a later input delivers.
- Intervals are numbered handles. The set `live` holds the handles whose
  interval still runs.
- `Run` folds a sequence of inputs through the generic `Traces.Fold` (`traces.dfy`), so multi-step traces can be stated.

Where the code does something a reader of its description might not expect,
the model follows the code and a lemma states it:

- the early-accept path can replace a better held quality with a worse one
  (`EarlyAcceptCanWorsenQuality`);
- the connection id is never cleared on disconnect (`ConnectionIdOnlyOnConnect`);
- `connect()` while connected sets `connecting` too (`ConnectWhileConnected`);
- being connected does not imply a connection id: a first `connect()` whose
  callback succeeds before the client's `connected` event leaves the manager
  connected with no id (`ConnectedWithoutId`);
- the monitor does not run only while the session is open and disconnected:
  the successful `connect()` callback arms it while connected, and `close()`
  of a connected manager re-arms it with the session closed
  (`MonitorArmedOutsideReconnect`);
- `close()` reports a disconnect only when the manager counts as connected,
  so from the disconnected state it emits nothing at all
  (`CloseSilentWhenDisconnected`);
- `close()` does not clear `connecting`, so a `connect()` after closing a
  connect in flight builds a new client but issues no session connect, and
  its promise settles only when the old callback arrives
  (`ConnectAfterCloseWaits`);
- a successful `connect()` callback sets `connected` without emitting any
  event (`SilentConnectCallback`). If the DDP library delivers that callback
  before its own `connected` event, the event is then swallowed. If the
  event comes first, as in `ReconnectTrace`, it is reported normally. The
  order is up to the library, so the model allows both.

## Model

| member | source | states |
|---|---|---|
| TimeSync.Configure | dist/lib/timeSync.js:7-14 | Every option except `serverDelayTime` ends up non-zero. A given non-zero value is kept; an absent or zero value takes its default. `serverDelayTime` defaults to 0. |
| TimeSyncProperties.ConfigureDefaults | dist/lib/timeSync.js:8-13 | With no options the defaults are a 600000 ms period, quality 20, 3 and 10 tries, 300 ms wait and no server delay. |
| TimeSyncProperties.ConfigureIdempotent | dist/lib/timeSync.js:7-14 | Feeding defaulted options back through the constructor changes nothing. |
| TimeSync.MaybeTriggerSync | dist/lib/timeSync.js:41-53 | A sync is scheduled exactly when more than `syncPeriod` has passed since the last sync time. When it is, the last sync time becomes now; otherwise nothing changes. |
| TimeSyncProperties.TriggerDoesNotRepeat | dist/lib/timeSync.js:42-45 | For a non-negative `syncPeriod`, a second check at the same instant does not schedule another round. |
| TimeSyncProperties.NegativePeriodAlwaysFires | dist/lib/timeSync.js:42-45 | A negative `syncPeriod`, which the constructor keeps, schedules a round on every check made no earlier than the last sync time, including a second check at the same instant. |
| TimeSyncProperties.TriggerAfterAcceptedRound | dist/lib/timeSync.js:41-45 | After a round stored a result, the next trigger fires exactly when more than `syncPeriod` has passed since that round finished. |
| TimeSync.Measure | dist/lib/timeSync.js:58-75 | An attempt yields a measurement exactly when the server time is truthy. The quality is half the round trip. The offset plus the estimated server-side instant (start plus half the round trip plus the server delay) equals the server time. |
| TimeSync.MeasurementsEmpty | dist/lib/timeSync.js:78-81 | The collected list is empty exactly when no attempt was answered. |
| TimeSyncProperties.MeasurementsFromAttempts | dist/lib/timeSync.js:78-81 | `TimeSync.Measurements`: every collected measurement is the measurement of one attempt. |
| TimeSyncProperties.MeasurementsCollectAnswered | dist/lib/timeSync.js:78-81 | `TimeSync.Measurements`, converse: every answered attempt contributes its measurement. |
| TimeSync.BestIndexIsFirstMin | dist/lib/timeSync.js:86-88 | `TimeSync.BestIndex`: the selected measurement has the least quality, and every earlier one is strictly worse: ties go to the first one seen. |
| TimeSyncProperties.FirstMinUnique | dist/lib/timeSync.js:86-88 | At most one index is the first minimum, so the selection rule determines the result. |
| TimeSync.TryLoop | dist/lib/timeSync.js:77-99 | The loop makes between `tryCount` and `maxTryCount` calls and collects exactly the measurements of those calls. If it stops early, the stop is at an attempt index of at least `minTryCount`, with the best measurement so far below `minSyncQuality`. |
| TimeSync.TryLoopStopsAtStop | dist/lib/timeSync.js:82-97 | An early stop happens at a stopping point: an attempt index of at least `minTryCount` whose best measurement so far is below `minSyncQuality`. |
| TimeSync.TryLoopSkipsNoStop | dist/lib/timeSync.js:77-98 | No stopping point lies before the attempt the loop stopped at, nor anywhere when it ran to `maxTryCount`. |
| TimeSync.SyncTime | dist/lib/timeSync.js:54-124 | The call count lies between the try-count bounds. A round resolving true has accepted a result whose quality is below `minSyncQuality`. Without an accepted result the clock is untouched and the round resolves false. An accepted result sets the last sync time to the finish time, and the invalidation callback runs exactly when a result was accepted and a callback exists. |
| TimeSyncProperties.RoundGoodIffStops | dist/lib/timeSync.js:82-98 | The round resolves true exactly when some attempt index below `maxTryCount` is a stopping point. It then stops at the first such index. |
| TimeSyncProperties.FallbackRule | dist/lib/timeSync.js:100-110 | `TimeSync.Selected` and `TimeSync.HeldBound`: without an early stop, the best of all measurements is kept exactly when it beats the held quality, with null or zero counting as 99990. |
| TimeSyncProperties.EarlyAcceptStoresBest | dist/lib/timeSync.js:91-96 | An early stop stores the best measurement of the attempts made so far. |
| TimeSyncProperties.NoAnswerLeavesClock | dist/lib/timeSync.js:100-123 | A round in which the source never answered changes nothing and resolves false. |
| TimeSyncProperties.RoundQualityBound | dist/lib/timeSync.js:91-118 | Afterwards the held quality is unchanged, or below `minSyncQuality`, or below the previously held bound. |
| TimeSyncProperties.EarlyAcceptCanWorsenQuality | dist/lib/timeSync.js:91-96 | The early path ignores the held quality. With constructor options `minTryCount` 1 and `maxTryCount` 2, a held quality of 1 is replaced by 5. |
| TimeSyncProperties.AcceptedIsBestOfRound | dist/lib/timeSync.js:100-115 | Whichever path accepted it, the stored result is the best measurement of the attempts made. |
| TimeSyncProperties.AcceptedMeasuredByAttempt | dist/lib/timeSync.js:111-114 | The stored offset and quality are the measurement of one attempt of this round. |
| TimeSyncProperties.AcceptedFromAttempt | dist/lib/timeSync.js:111-115 | After acceptance, `currentTime` at the accepted attempt's estimated server-side instant equals the server time that attempt reported. |
| TimeSyncProperties.AttemptAnchorsClock | dist/lib/timeSync.js:23-25 | `TimeSync.CurrentTime`: a clock holding an attempt's measurement reads that attempt's server time at its estimated server-side instant. |
| TimeSyncProperties.IsGoodDiffersOnlyAtZero | dist/lib/timeSync.js:32-34 | `TimeSync.IsGood`: `isGood` as written agrees with "a quality is held and it is below `minSyncQuality`", except when the held quality is exactly 0. |
| TimeSyncProperties.GoodRoundIsGoodIntended | dist/lib/timeSync.js:32-34 | After a round that resolves true, the intended `isGood` check holds. |
| TimeSyncProperties.ZeroQualityRoundNotGood | dist/lib/timeSync.js:32-34 | With constructor options `minTryCount` 1 and `maxTryCount` 2, a round of two instantaneous round trips resolves true, yet `isGood` as written then reports false. |
| TimeSyncProperties.TwoAnswerRoundStopsEarly | dist/lib/timeSync.js:77-98 | With try counts 1 and 2 and two answered attempts, one of them below the threshold, the round stops after the second attempt and stores the first least measurement. |
| TimeSyncProperties.ScenarioEarlyAccept | dist/lib/timeSync.js:77-98 | With try counts 1 and 3, quality bound 5 and qualities 20, 3, 15, the round stops after two calls with offset 1097 and quality 3. |
| TimeSyncProperties.ScenarioIdealNetwork | dist/lib/timeSync.js:77-118 | With zero round trips, a server 100 ahead, default try counts and bound 10, the round resolves true after four calls with offset 100. |
| DdpConnector.ClientSettings | dist/lib/ddpConnector.js:15-26 | The client gets host and port from the options and path defaulting to empty. SSL is on only when requested. SockJS is on, the client's own reconnection is off, and the timer is 1000 with protocol version "1". |
| DdpConnector.MonitorPeriod | dist/lib/ddpConnector.js:134 | The monitor period is never zero. A non-zero configured timer is kept, and it is 1000 when no timer is configured. This records the defaulting only: no transition reads the period. |
| DdpConnectorProperties.InitInv | dist/lib/ddpConnector.js:6-13 | `DdpConnector.Init`: the constructor starts with no client, disconnected, not connecting, the session closed and no interval, and that state satisfies the invariants. |
| DdpConnector.CreateClient | dist/lib/ddpConnector.js:27-50 | Afterwards a client with the configured settings exists. A connect is issued exactly when a client already existed, and then exactly one, for the caller. The existing client keeps its session and gets a socket. The connection flags, the connection id and the monitor are untouched. |
| DdpConnector.Connect | dist/lib/ddpConnector.js:67-92 | Once its deferred step has run, `connect()` leaves a client and `connecting` set. It issues one new session connect unless one is already in flight, and emits nothing by itself. It leaves `connected`, `ddpIsOpen`, the connection id and the monitor interval alone. |
| DdpConnectorProperties.ConnectWhileConnecting | dist/lib/ddpConnector.js:72 | With a client present and a connect in flight, `connect()` changes nothing. If `close()` dropped the client meanwhile, `connect()` builds a new one first. |
| DdpConnectorProperties.ConnectWhileConnected | dist/lib/ddpConnector.js:72-77 | `connect()` does not check `connected`: called while connected it sets `connecting` as well. |
| DdpConnectorProperties.ConnectCallbackOutcome | dist/lib/ddpConnector.js:78-89 | `DdpConnector.Callback` for `connect()`: the `connect()` callback always clears `connecting`. On error it rejects, and removing the callback and clearing `connecting` are the only changes. On success it resolves, sets `connected` and `ddpIsOpen`, runs exactly one fresh monitor interval, and keeps the client and the connection id. |
| DdpConnectorProperties.SilentConnectCallback | dist/lib/ddpConnector.js:84-88 | A successful `connect()` callback sets `connected` with no event. The client's `connected` event that follows emits nothing and leaves the connection id as it was. |
| DdpConnectorProperties.ReconnectCallbackOutcome | dist/lib/ddpConnector.js:52-61 | `DdpConnector.Callback` for `createClient`: the callback of a `createClient` connect only settles that call. A failed monitor reconnect becomes an `error` event; a `forceReconnect` caller sees resolve or reject. |
| DdpConnector.ForceReconnect | dist/lib/ddpConnector.js:108-110 | With no client it resolves at once without connecting. Otherwise it issues one connect for the caller. The connection flags and intervals are unchanged. |
| DdpConnector.Close | dist/lib/ddpConnector.js:97-104 | After `close()` there is no client and the session is neither open nor connected. It emits `connectionChanged(false)` and `disconnected` exactly when the manager was connected, and nothing otherwise. It keeps `connecting`, the pending callbacks and the connection id, and from the disconnected state it leaves the monitor alone. |
| DdpConnectorProperties.CloseIdempotent | dist/lib/ddpConnector.js:97-104 | A second `close()` changes nothing and emits nothing, so two closes emit at most one `disconnected`. |
| DdpConnector.Monitor | dist/lib/ddpConnector.js:118-121 | Re-arming takes a fresh handle and leaves only the new interval running; nothing else changes. |
| DdpConnectorProperties.MonitorReplacesInterval | dist/lib/ddpConnector.js:118-121 | The previous interval's handle is no longer live once the monitor is re-armed. |
| DdpConnector.StopMonitor | dist/lib/ddpConnector.js:129-133 | Stopping leaves no interval running and changes nothing else. |
| DdpConnectorProperties.TickDecision | dist/lib/ddpConnector.js:121-134 | `DdpConnector.Tick`: a cleared interval never fires. A running tick reconnects exactly when a client exists, the manager is not connected, the session is open and automatic reconnection is not disabled. Otherwise it stops the interval. A tick never changes `connected`, `ddpIsOpen`, `connecting` or the connection id. |
| DdpConnectorProperties.StoppedMonitorStaysQuiet | dist/lib/ddpConnector.js:129-133 | Once a tick has stopped the monitor, further ticks do nothing. |
| DdpConnectorProperties.ConnectionChangeEdgeTriggered | dist/lib/ddpConnector.js:136-151 | `DdpConnector.ConnectionChange`: reporting the current state emits nothing. A real change records it and emits `connectionChanged(up)` followed by `connected` or `disconnected`. Going up takes the client's session as the connection id, and with no client it throws after setting the flag. Going down keeps the id and leaves exactly a fresh monitor interval. It never touches the client, `ddpIsOpen`, `connecting` or the pending callbacks, and going up leaves the monitor alone. |
| DdpConnectorProperties.SessionConnectedOutcome | dist/lib/ddpConnector.js:115 | `DdpConnector.SessionConnected`: from disconnected, the client's `connected` event takes its session as the connection id and emits `connectionChanged(true)` then `connected`. When already connected it emits nothing and keeps the id. With no client it throws. It never changes `ddpIsOpen`, `connecting`, the pending callbacks or the monitor. |
| DdpConnectorProperties.SocketClosedOutcome | dist/lib/ddpConnector.js:30-32 | `DdpConnector.SocketClosed`: a `socket-close` leaves the manager disconnected with the id kept. When it was connected, it emits `connectionChanged(false)` then `disconnected` and leaves exactly a fresh interval; otherwise it emits nothing and no interval changes. `ddpIsOpen`, `connecting` and the pending callbacks are kept. |
| DdpConnectorProperties.ConnectionChangeTwice | dist/lib/ddpConnector.js:137 | Reporting the same state twice emits at most once. |
| DdpConnectorProperties.ChangeEventsMarkFlips | dist/lib/ddpConnector.js:136-147 | Any `connectionChanged(b)` output marks a real flip: the manager was in the other state before and is in state `b` after. |
| DdpConnectorProperties.ConnectionIdOnlyOnConnect | dist/lib/ddpConnector.js:139-141 | The connection id changes only on a transition to connected, to the session the client reported, and once set it is never cleared. |
| DdpConnector.ConnectionFailed | dist/lib/ddpConnector.js:152-160 | Exactly one output. A failure is emitted as `failed` exactly when a listener exists and is logged exactly when none does. Afterwards exactly one fresh monitor interval runs, and nothing else changes. |
| DdpConnector.ClientError | dist/lib/ddpConnector.js:165-168 | A socket error is emitted as `error`, as the only output. Afterwards exactly one fresh monitor interval runs, and nothing else changes. |
| DdpConnectorProperties.StepPreservesInv | dist/lib/ddpConnector.js:118-135 | Every operation and event keeps two invariants: at most one interval runs and it is the one the handle names, and `connecting` is set exactly while one `connect()` callback is outstanding. |
| DdpConnectorProperties.RunPreservesInv | dist/lib/ddpConnector.js:118-135 | After any sequence of operations and events, at most one monitor interval runs. |
| DdpConnectorProperties.ConnectedWithoutId | dist/lib/ddpConnector.js:67-92 | A first `connect()` whose callback succeeds before any `connected` event from the client leaves the manager connected with no connection id. |
| DdpConnectorProperties.MonitorArmedOutsideReconnect | dist/lib/ddpConnector.js:84-87 | The successful `connect()` callback arms the monitor while connected with the session open. `close()` of a connected manager re-arms it with the session closed. |
| DdpConnectorProperties.CloseSilentWhenDisconnected | dist/lib/ddpConnector.js:97-104 | From the disconnected state `close()` emits nothing, and a second `close()` emits nothing either. |
| DdpConnectorProperties.DdpIsOpenWrittenOnlyByCloseAndConnect | dist/lib/ddpConnector.js:84-98 | `DdpConnector.Step`: `ddpIsOpen` changes only on `close()` or on the success callback of a pending `connect()`. |
| DdpConnectorProperties.ConnectAfterCloseWaits | dist/lib/ddpConnector.js:67-104 | `close()` during a `connect()` in flight keeps `connecting` and the pending callback, so the next `connect()` issues no session connect and emits nothing. |
| DdpConnectorProperties.ForwardedEvents | dist/lib/ddpConnector.js:161-171 | `DdpConnector.Step` for the client's `message` and `info` events: each is re-emitted verbatim as the only output, and the state is unchanged. |
| DdpConnectorProperties.ReconnectTrace | dist/lib/ddpConnector.js:121-151 | A connect, a lost socket and a monitor tick produce, in order, connected, disconnected and connected again, and the manager ends holding the new session's id. |

## Left out

- `init()` is not modelled: its `setInterval` of `maybeTriggerSync` (timeSync.js:35-40) is a timer, and each tick is `MaybeTriggerSync`.
- Reads of `Date.now()` are parameters: the attempt times, the round's finish time and the `now` of `MaybeTriggerSync`.
- TimeSync.MaybeTriggerSync: the `setTimeout` that starts the round and the logging of its failure are left out. The source reads the clock twice in quick succession; the model reads it once.
- `retryWaitTime` is defaulted and then never used by the source, so it has no effect in the model either.
- Floating-point rounding, NaN and non-integer try counts are not modelled: times are exact reals and try counts are integers.
- TimeSync.SyncTime: requires at least `maxTryCount` answers from the time source. This is how the source sequence models the asynchronous source. A rejected source promise (which aborts the round) is not modelled.
- TimeSync.SyncTime: the round runs atomically. Interleaving with another round or with `maybeTriggerSync` is not modelled.
- The getters `quality`, `diff`, `connected` and `connectionId` just read fields of the model's state.
- DdpConnector.ClientError: assumes an `error` listener is registered. Without one, emitting `error` throws before the monitor is re-armed (ddpConnector.js:166-167), and a failed monitor reconnect becomes an unhandled rejection (ddpConnector.js:126). The model does not model these.
- The event emitter itself is left out. Emitted events are outputs, and whether a `failed` listener exists is a flag.
- The connector's repeated `_setupDDPEvents` adds a `connected` and a `failed` listener on each call (ddpConnector.js:114-117). The model delivers each client event once, so duplicated handler calls are not modelled.
- The DDP client library's internals are an environment. A session connect's callback, the `connected` event with a session id and `socket-close` are inputs. `close()` on the client only drops the socket.
- `tlsOpts` and `maintain_collections` are left out of the settings. `tlsOpts` is wrapped as `{ tls: … }` and set only when a client is built (ddpConnector.js:20). `maintain_collections` is the constant `true` (ddpConnector.js:24).
- DdpConnector.Connect: the deferred part of `connect()` runs at once. In the source, the test of `ddpClient` and `_connecting` and the session connect run in a `.then` (ddpConnector.js:70-78), after the caller's next synchronous statement. So a `close()` or `forceReconnect()` made synchronously after `connect()` is ordered after it here. In the source, a `close()` there deletes the client first, and no session connect is issued.
- A `connect()` promise is modelled only through its settlement outputs. While another connect is in flight it never settles.

## Findings

| source | as written | input that shows it | evidently intended | confidence | as-written member | corrected member |
|---|---|---|---|---|---|---|
| dist/lib/timeSync.js:33 | `isGood` tests the held quality for truthiness, so a held quality of exactly 0 counts as not good | constructor options `{minTryCount: 1, maxTryCount: 2}` and two attempts with no round-trip time (start and end at 5, server 105; start and end at 6, server 106): the round resolves true with quality 0, yet `isGood()` is false | good whenever a quality is held and it is below `minSyncQuality`, as after any round that resolved true | not executed | TimeSyncProperties.ZeroQualityRoundNotGood | TimeSyncProperties.GoodRoundIsGoodIntended |

=== FILE: ddp_connector.dfy ===
/** Connection manager around a DDP client: connect, close, automatic
    reconnection through a monitor interval, and the events it emits.

    The DDP client library, the event emitter and the timers are abstracted:
    the client is a record of its settings, whether it has a socket and the
    session id the server assigned; every session-level connect the manager
    issues leaves a pending callback that the environment later delivers;
    intervals are numbered handles, and `live` is the set of handles whose
    interval is still running. Each operation is a pure transition that
    returns the next state and the outputs (emitted events, the console line
    for an unobserved failure, promise settlements) in order. */
module DdpConnector {
  import opened Wrappers
  import opened Traces

  type TimerId = nat

  /** Connection options given to the constructor. */
  datatype Options = Options(
    host: string,
    port: int,
    path: Option<string>,
    ssl: Option<bool>,
    autoReconnect: Option<bool>,
    autoReconnectTimer: Option<int>)

  /** Settings `createClient` applies to the DDP client. */
  datatype Settings = Settings(
    host: string,
    port: int,
    path: string,
    ssl: bool,
    useSockJS: bool,
    autoReconnect: bool,
    autoReconnectTimer: int,
    ddpVersion: string)

  /** The DDP client: its settings, whether it holds a socket, and the
      session id the server assigned (if any). The socket flag is
      bookkeeping only: the connector closes and reopens the socket the same
      way whichever its value, so no transition reads it. */
  datatype Client = Client(settings: Settings, socket: bool, session: Option<string>)

  /** Who asked `createClient` to connect, which decides where the outcome goes. */
  datatype Origin = ViaConnect | ViaForceReconnect | ViaMonitor

  /** A session-level connect waiting for its callback. */
  datatype Pending = ConnectCallback | ReconnectCallback(origin: Origin)

  /** Everything observable the manager produces. */
  datatype Output =
    | ConnectionChanged(up: bool)
    | ConnectedEvent
    | DisconnectedEvent
    | FailedEvent(failure: string)
    | ErrorEvent(error: string)
    | MessageEvent(message: string)
    | InfoEvent(info: string)
    | FailureLogged(failure: string)   // console line when nobody listens to 'failed'
    | ConnectResolved
    | ConnectRejected(error: string)
    | ReconnectResolved
    | ReconnectRejected(error: string)
    | TypeErrorThrown                  // reading the session of a client that is gone

  /** The manager's state. `failedListener` says whether a 'failed'
      listener is registered. */
  datatype Conn = Conn(
    options: Options,
    failedListener: bool,
    client: Option<Client>,
    connected: bool,
    connecting: bool,
    ddpIsOpen: bool,
    connectionId: Option<string>,
    monitor: Option<TimerId>,
    live: set<TimerId>,
    nextTimer: TimerId,
    pending: seq<Pending>)

  /** A transition's result: next state and outputs in order. */
  datatype Next = Next(conn: Conn, out: seq<Output>)

  /** The constructor. */
  function Init(options: Options, failedListener: bool): (c: Conn)
  {
    Conn(options, failedListener, None, false, false, false, None, None, {}, 0, [])
  }

  /** The monitor's period: the configured timer, or 1000 when it is absent
      or zero. The period decides only when ticks arrive, which the model
      leaves to the environment, so this records the defaulting alone and no
      transition reads it. */
  function MonitorPeriod(options: Options): (p: int)
    ensures p != 0
    ensures options.autoReconnectTimer.Some? && options.autoReconnectTimer.value != 0 ==>
              p == options.autoReconnectTimer.value
    ensures options.autoReconnectTimer.None? ==> p == 1000
  {
    if options.autoReconnectTimer.Some? && options.autoReconnectTimer.value != 0
    then options.autoReconnectTimer.value else 1000
  }

  /** The settings `createClient` builds from the options. The connector
      always disables the client's own reconnection. */
  function ClientSettings(options: Options): (s: Settings)
    ensures !s.autoReconnect && s.useSockJS && s.autoReconnectTimer == 1000 && s.ddpVersion == "1"
    ensures s.host == options.host && s.port == options.port
    ensures s.path == options.path.GetOr("")
    ensures s.ssl <==> options.ssl == Some(true)
  {
    Settings(options.host, options.port, options.path.GetOr(""),
             options.ssl == Some(true), true, false, 1000, "1")
  }

  // ---------------------------------------------------------------------------
  // Internal steps
  // ---------------------------------------------------------------------------

  /** At most one interval runs, it is the one the handle names, and every
      handle handed out is older than the next one. */
  ghost predicate MonitorInv(c: Conn)
  {
    && (c.live == {} || (c.monitor.Some? && c.live == {c.monitor.value}))
    && (c.monitor.Some? ==> c.monitor.value < c.nextTimer)
  }

  /** A connect from `connect()` is in flight exactly when `connecting` is
      set, and there is never more than one. */
  ghost predicate ConnectingInv(c: Conn)
  {
    && (c.connecting <==> ConnectCallback in c.pending)
    && multiset(c.pending)[ConnectCallback] <= 1
  }

  ghost predicate Inv(c: Conn)
  {
    MonitorInv(c) && ConnectingInv(c)
  }

  /** `_monitorDDPConnection`: cancel the running interval, if any, and start
      a fresh one. */
  function Monitor(c: Conn): (r: Conn)
    ensures r.monitor == Some(c.nextTimer) && r.nextTimer == c.nextTimer + 1
    ensures MonitorInv(c) ==> r.live == {c.nextTimer} && MonitorInv(r)
    ensures r == c.(monitor := r.monitor, live := r.live, nextTimer := r.nextTimer)
  {
    var stopped := if c.monitor.Some? then c.live - {c.monitor.value} else c.live;
    c.(live := stopped + {c.nextTimer}, monitor := Some(c.nextTimer), nextTimer := c.nextTimer + 1)
  }

  /** `clearInterval` on the current handle; the handle itself is kept. */
  function StopMonitor(c: Conn): (r: Conn)
    ensures MonitorInv(c) ==> r.live == {} && MonitorInv(r)
    ensures r == c.(live := r.live)
  {
    if c.monitor.Some? then c.(live := c.live - {c.monitor.value}) else c
  }

  /** `_onclientConnectionChange(up)`: edge-triggered. When the state
      changes it records it, takes the client's session id on a transition
      to connected, emits `connectionChanged(up)` then `connected` or
      `disconnected`, and re-arms the monitor on a disconnect. With no client,
      reading the session id throws after the flag was set. */
  function ConnectionChange(c: Conn, up: bool): (r: Next)
  {
    if up == c.connected then Next(c, [])
    else if up && c.client.None? then Next(c.(connected := true), [TypeErrorThrown])
    else
      var c1 := c.(connected := up,
                   connectionId := if up then c.client.value.session else c.connectionId);
      var out := [ConnectionChanged(up), if up then ConnectedEvent else DisconnectedEvent];
      if up then Next(c1, out) else Next(Monitor(c1), out)
  }

  /** `createClient`: with no client, build one and resolve without
      connecting; otherwise close its socket, re-apply the settings and issue
      a session connect whose outcome goes to `origin`. */
  function CreateClient(c: Conn, origin: Origin): (r: Conn)
    ensures r.client.Some? && r.client.value.settings == ClientSettings(c.options)
    ensures c.client.None? <==> r.pending == c.pending
    ensures c.client.None? ==> !r.client.value.socket && r.client.value.session.None?
    ensures c.client.Some? ==>
              && r.pending == c.pending + [ReconnectCallback(origin)]
              && r.client.value.socket && r.client.value.session == c.client.value.session
    ensures && r.options == c.options && r.failedListener == c.failedListener
            && r.connected == c.connected && r.connecting == c.connecting && r.ddpIsOpen == c.ddpIsOpen
            && r.connectionId == c.connectionId && r.monitor == c.monitor && r.live == c.live
            && r.nextTimer == c.nextTimer
  {
    if c.client.None? then
      c.(client := Some(Client(ClientSettings(c.options), false, None)))
    else
      // an open socket is closed, then the connect opens a new one
      var cl := c.client.value.(settings := ClientSettings(c.options), socket := true);
      c.(client := Some(cl), pending := c.pending + [ReconnectCallback(origin)])
  }

  function RemoveAt<T>(s: seq<T>, i: nat): (r: seq<T>)
    requires i < |s|
    ensures |r| == |s| - 1
    ensures multiset(r) == multiset(s) - multiset{s[i]}
  {
    assert s == s[..i] + [s[i]] + s[i + 1..];
    s[..i] + s[i + 1..]
  }

  // ---------------------------------------------------------------------------
  // Public operations and incoming client events
  // ---------------------------------------------------------------------------

  /** `connect()`: create a client if there is none; then, unless a connect
      is already in flight, close its socket and issue a session connect.
      While `connecting`, the returned promise never settles. */
  function Connect(c: Conn): (r: Next)
    ensures r.out == []
    ensures c.connecting ==> r.conn.pending == c.pending && r.conn.connecting
    ensures !c.connecting ==> r.conn.connecting && r.conn.pending == c.pending + [ConnectCallback]
    ensures r.conn.client.Some?
    ensures && r.conn.options == c.options && r.conn.failedListener == c.failedListener
            && r.conn.connected == c.connected && r.conn.ddpIsOpen == c.ddpIsOpen
            && r.conn.connectionId == c.connectionId && r.conn.monitor == c.monitor
            && r.conn.live == c.live && r.conn.nextTimer == c.nextTimer
  {
    var c1 := if c.client.None? then CreateClient(c, ViaConnect) else c;
    if !c1.connecting then
      Next(c1.(client := Some(c1.client.value.(socket := true)),
               connecting := true,
               pending := c1.pending + [ConnectCallback]), [])
    else Next(c1, [])
  }

  /** `close()`: mark the session closed, drop the client and report a
      disconnect (only if the manager thought it was connected). */
  function Close(c: Conn): (r: Next)
    ensures !r.conn.ddpIsOpen && r.conn.client.None? && !r.conn.connected
    ensures r.out == [] || r.out == [ConnectionChanged(false), DisconnectedEvent]
    ensures r.out != [] <==> c.connected
    ensures && r.conn.options == c.options && r.conn.failedListener == c.failedListener
            && r.conn.connecting == c.connecting && r.conn.pending == c.pending
            && r.conn.connectionId == c.connectionId
    ensures !c.connected ==> r.conn.live == c.live && r.conn.monitor == c.monitor && r.conn.nextTimer == c.nextTimer
  {
    ConnectionChange(c.(ddpIsOpen := false, client := None), false)
  }

  /** `forceReconnect()`: `createClient` with the outcome going to the caller. */
  function ForceReconnect(c: Conn): (r: Next)
    ensures c.client.None? ==> r.out == [ReconnectResolved] && r.conn.pending == c.pending
    ensures c.client.Some? ==> r.out == [] && r.conn.pending == c.pending + [ReconnectCallback(ViaForceReconnect)]
    ensures r.conn.connected == c.connected && r.conn.ddpIsOpen == c.ddpIsOpen && r.conn.live == c.live
  {
    var out := if c.client.None? then [ReconnectResolved] else [];
    Next(CreateClient(c, ViaForceReconnect), out)
  }

  /** One tick of the monitor interval. A cleared interval never fires. The
      tick reconnects when a client exists, the manager is not connected, the
      session is open and automatic reconnection is not disabled; otherwise
      it stops the interval. */
  function Tick(c: Conn): (r: Next)
    ensures r.out == []
  {
    if c.live == {} then Next(c, [])
    else if c.client.Some? && !c.connected && c.ddpIsOpen && c.options.autoReconnect != Some(false)
    then Next(CreateClient(c, ViaMonitor), [])
    else Next(StopMonitor(c), [])
  }

  /** Delivery of the callback of pending connect `i` with an optional
      error. The callback of `connect()` clears `connecting`, and on success
      sets `connected` and `ddpIsOpen` and re-arms the monitor. The callback
      of a `createClient` connect settles that promise; a failed reconnect
      started by the monitor is emitted as an `error` event. */
  function Callback(c: Conn, i: nat, err: Option<string>): (r: Next)
  {
    if i >= |c.pending| then Next(c, [])
    else
      var c1 := c.(pending := RemoveAt(c.pending, i));
      match c.pending[i]
      case ConnectCallback =>
        var c2 := c1.(connecting := false);
        if err.Some? then Next(c2, [ConnectRejected(err.value)])
        else Next(Monitor(c2.(connected := true, ddpIsOpen := true)), [ConnectResolved])
      case ReconnectCallback(origin) =>
        var out :=
          match origin
          case ViaForceReconnect =>
            if err.Some? then [ReconnectRejected(err.value)] else [ReconnectResolved]
          case ViaMonitor =>
            if err.Some? then [ErrorEvent(err.value)] else []
          case ViaConnect => [];
        Next(c1, out)
  }

  /** The client's `connected` event: it now has session `session`. */
  function SessionConnected(c: Conn, session: string): (r: Next)
  {
    var c1 := if c.client.Some? then c.(client := Some(c.client.value.(session := Some(session)))) else c;
    ConnectionChange(c1, true)
  }

  /** The client's `socket-close` event. */
  function SocketClosed(c: Conn): (r: Next)
  {
    var c1 := if c.client.Some? then c.(client := Some(c.client.value.(socket := false))) else c;
    ConnectionChange(c1, false)
  }

  /** `_onClientConnectionFailed`: re-emit `failed` when someone listens,
      otherwise only log it; re-arm the monitor either way. */
  function ConnectionFailed(c: Conn, failure: string): (r: Next)
    ensures |r.out| == 1
    ensures FailedEvent(failure) in r.out <==> c.failedListener
    ensures FailureLogged(failure) in r.out <==> !c.failedListener
    ensures MonitorInv(c) ==> r.conn.live == {c.nextTimer} && MonitorInv(r.conn)
    ensures r.conn.monitor == Some(c.nextTimer) && r.conn.nextTimer == c.nextTimer + 1
    ensures && r.conn.options == c.options && r.conn.failedListener == c.failedListener
            && r.conn.client == c.client && r.conn.connected == c.connected
            && r.conn.connecting == c.connecting && r.conn.ddpIsOpen == c.ddpIsOpen
            && r.conn.connectionId == c.connectionId && r.conn.pending == c.pending
  {
    Next(Monitor(c), if c.failedListener then [FailedEvent(failure)] else [FailureLogged(failure)])
  }

  /** `_onClientError`: emit `error` and re-arm the monitor. */
  function ClientError(c: Conn, error: string): (r: Next)
    ensures r.out == [ErrorEvent(error)]
    ensures MonitorInv(c) ==> r.conn.live == {c.nextTimer} && MonitorInv(r.conn)
    ensures r.conn.monitor == Some(c.nextTimer) && r.conn.nextTimer == c.nextTimer + 1
    ensures && r.conn.options == c.options && r.conn.failedListener == c.failedListener
            && r.conn.client == c.client && r.conn.connected == c.connected
            && r.conn.connecting == c.connecting && r.conn.ddpIsOpen == c.ddpIsOpen
            && r.conn.connectionId == c.connectionId && r.conn.pending == c.pending
  {
    Next(Monitor(c), [ErrorEvent(error)])
  }

  // ---------------------------------------------------------------------------
  // Traces
  // ---------------------------------------------------------------------------

  /** Calls from the owner and events from the client and the timer. */
  datatype Input =
    | DoConnect
    | DoClose
    | DoForceReconnect
    | MonitorTick
    | ConnectCallbackFired(index: nat, err: Option<string>)
    | ClientConnected(session: string)
    | ClientSocketClose
    | ClientFailed(failure: string)
    | ClientSocketError(error: string)
    | ClientMessage(message: string)
    | ClientInfo(info: string)

  function Step(c: Conn, input: Input): (r: Next)
  {
    match input
    case DoConnect => Connect(c)
    case DoClose => Close(c)
    case DoForceReconnect => ForceReconnect(c)
    case MonitorTick => Tick(c)
    case ConnectCallbackFired(i, err) => Callback(c, i, err)
    case ClientConnected(session) => SessionConnected(c, session)
    case ClientSocketClose => SocketClosed(c)
    case ClientFailed(failure) => ConnectionFailed(c, failure)
    case ClientSocketError(error) => ClientError(c, error)
    case ClientMessage(message) => Next(c, [MessageEvent(message)])
    case ClientInfo(info) => Next(c, [InfoEvent(info)])
  }

  /** `Step` in the shape `Traces.Fold` expects. */
  function StepOutcome(c: Conn, input: Input): (r: Outcome<Conn, Output>)
  {
    var n := Step(c, input);
    Outcome(n.conn, n.out)
  }

  /** Runs a sequence of inputs, collecting all outputs in order. */
  function Run(c: Conn, inputs: seq<Input>): (r: Next)
  {
    var r := Fold(StepOutcome, c, inputs);
    Next(r.state, r.out)
  }
}

=== FILE: ddp_connector_properties.dfy ===
/** Properties of the connector state machine: the invariants every
    transition keeps, edge-triggered connection events, idempotent close,
    the monitor's decision, and a reconnect trace. */
module DdpConnectorProperties {
  import opened Wrappers
  import opened Traces
  import opened DdpConnector

  // ---------------------------------------------------------------------------
  // Invariants
  // ---------------------------------------------------------------------------

  /** The constructor starts with no client, disconnected, not connecting,
      the session closed, no connection id, no interval and nothing pending,
      and that state satisfies the invariants. */
  lemma InitInv(options: Options, failedListener: bool)
    ensures var c := Init(options, failedListener);
            && c.client.None? && !c.connected && !c.connecting && !c.ddpIsOpen
            && c.connectionId.None? && c.monitor.None? && c.live == {} && c.pending == []
    ensures Inv(Init(options, failedListener))
  {
  }

  lemma ConnectionChangeInv(c: Conn, up: bool)
    requires Inv(c)
    ensures Inv(ConnectionChange(c, up).conn)
  {
    if up != c.connected && !(up && c.client.None?) && !up {
      var c1 := c.(connected := up);
      assert MonitorInv(c1) && ConnectingInv(c1);
    }
  }

  lemma CallbackInv(c: Conn, i: nat, err: Option<string>)
    requires Inv(c)
    ensures Inv(Callback(c, i, err).conn)
  {
    if i < |c.pending| {
      var rest := RemoveAt(c.pending, i);
      var m := multiset(rest);
      if c.pending[i] == ConnectCallback {
        assert m[ConnectCallback] == 0;
      } else {
        assert m[ConnectCallback] == multiset(c.pending)[ConnectCallback];
        assert ConnectCallback in rest <==> ConnectCallback in m;
      }
    }
  }

  lemma CreateClientInv(c: Conn, origin: Origin)
    requires Inv(c)
    ensures Inv(CreateClient(c, origin))
  {
    var p := CreateClient(c, origin).pending;
    if c.client.Some? {
      assert multiset(p)[ConnectCallback] == multiset(c.pending)[ConnectCallback];
      assert ConnectCallback in p <==> ConnectCallback in c.pending;
    }
  }

  lemma ConnectInv(c: Conn)
    requires Inv(c)
    ensures Inv(Connect(c).conn)
  {
    var c1 := if c.client.None? then CreateClient(c, ViaConnect) else c;
    if c.client.None? { CreateClientInv(c, ViaConnect); }
    if !c1.connecting {
      assert multiset(c1.pending + [ConnectCallback]) == multiset(c1.pending) + multiset{ConnectCallback};
    }
  }

  lemma TickInv(c: Conn)
    requires Inv(c)
    ensures Inv(Tick(c).conn)
  {
    if c.live != {} && c.client.Some? { CreateClientInv(c, ViaMonitor); }
  }

  lemma SessionConnectedInv(c: Conn, session: string)
    requires Inv(c)
    ensures Inv(SessionConnected(c, session).conn)
  {
    var c1 := if c.client.Some? then c.(client := Some(c.client.value.(session := Some(session)))) else c;
    ConnectionChangeInv(c1, true);
  }

  lemma SocketClosedInv(c: Conn)
    requires Inv(c)
    ensures Inv(SocketClosed(c).conn)
  {
    var c1 := if c.client.Some? then c.(client := Some(c.client.value.(socket := false))) else c;
    ConnectionChangeInv(c1, false);
  }

  /** Every transition keeps the invariants: at most one monitor interval
      runs and it is the one the handle names, and `connecting` is set
      exactly while one connect from `connect()` awaits its callback. */
  lemma StepPreservesInv(c: Conn, input: Input)
    requires Inv(c)
    ensures Inv(Step(c, input).conn)
  {
    match input
    case DoConnect => ConnectInv(c);
    case DoClose => ConnectionChangeInv(c.(ddpIsOpen := false, client := None), false);
    case DoForceReconnect => CreateClientInv(c, ViaForceReconnect);
    case MonitorTick => TickInv(c);
    case ConnectCallbackFired(i, err) => CallbackInv(c, i, err);
    case ClientConnected(session) => SessionConnectedInv(c, session);
    case ClientSocketClose => SocketClosedInv(c);
    case ClientFailed(_) =>
    case ClientSocketError(_) =>
    case ClientMessage(_) =>
    case ClientInfo(_) =>
  }

  /** The invariants hold after any trace from the constructor's state, so
      at no point do two monitor intervals run. */
  lemma {:induction false} RunPreservesInv(c: Conn, inputs: seq<Input>)
    requires Inv(c)
    ensures Inv(Run(c, inputs).conn)
    ensures |Run(c, inputs).conn.live| <= 1
    decreases |inputs|
  {
    if |inputs| > 0 {
      var head := Step(c, inputs[0]);
      StepPreservesInv(c, inputs[0]);
      RunPreservesInv(head.conn, inputs[1..]);
      RunCons(c, inputs, head, Run(head.conn, inputs[1..]));
    }
  }

  /** Re-arming the monitor cancels the interval that was running: its
      handle is no longer live. */
  lemma MonitorReplacesInterval(c: Conn)
    requires MonitorInv(c)
    ensures c.monitor.Some? ==> c.monitor.value !in Monitor(c).live
  {
  }


  // ---------------------------------------------------------------------------
  // Connection events
  // ---------------------------------------------------------------------------

  /** `_onclientConnectionChange` emits nothing when the state does not
      change, and otherwise `connectionChanged(up)` followed by exactly one
      of `connected` / `disconnected`. */
  lemma ConnectionChangeEdgeTriggered(c: Conn, up: bool)
    ensures up == c.connected ==> ConnectionChange(c, up) == Next(c, [])
    ensures up != c.connected && (!up || c.client.Some?) ==>
              && ConnectionChange(c, up).conn.connected == up
              && ConnectionChange(c, up).out
                 == [ConnectionChanged(up), if up then ConnectedEvent else DisconnectedEvent]
    ensures up && !c.connected && c.client.Some? ==>
              ConnectionChange(c, up).conn.connectionId == c.client.value.session
    ensures up && !c.connected && c.client.None? ==>
              ConnectionChange(c, up).conn.connected && ConnectionChange(c, up).out == [TypeErrorThrown]
    ensures !up && c.connected && MonitorInv(c) ==>
              && ConnectionChange(c, up).conn.live == {c.nextTimer}
              && ConnectionChange(c, up).conn.connectionId == c.connectionId
    ensures var r := ConnectionChange(c, up).conn;
            && r.options == c.options && r.failedListener == c.failedListener
            && r.client == c.client && r.ddpIsOpen == c.ddpIsOpen
            && r.connecting == c.connecting && r.pending == c.pending
    ensures up ==> ConnectionChange(c, up).conn.live == c.live && ConnectionChange(c, up).conn.monitor == c.monitor
  {
  }

  /** The client's `connected` event records its session. From the
      disconnected state it takes that session as the connection id and
      emits `connectionChanged(true)` then `connected`; when the manager
      already counts as connected it emits nothing and keeps the id. With
      no client, reading the session throws. */
  lemma SessionConnectedOutcome(c: Conn, session: string)
    ensures var r := SessionConnected(c, session);
            && r.conn.connected
            && (c.client.Some? ==> r.conn.client.value.session == Some(session))
            && (c.client.Some? && !c.connected ==>
                  r.conn.connectionId == Some(session) && r.out == [ConnectionChanged(true), ConnectedEvent])
            && (c.connected ==> r.out == [] && r.conn.connectionId == c.connectionId)
            && (c.client.None? && !c.connected ==> r.out == [TypeErrorThrown])
            && r.conn.ddpIsOpen == c.ddpIsOpen && r.conn.connecting == c.connecting
            && r.conn.pending == c.pending
            && r.conn.live == c.live && r.conn.monitor == c.monitor && r.conn.nextTimer == c.nextTimer
  {
    ConnectionChangeEdgeTriggered(c, true);
    if c.client.Some? {
      var c1 := c.(client := Some(c.client.value.(session := Some(session))));
      ConnectionChangeEdgeTriggered(c1, true);
    }
  }

  /** The client's `socket-close` event leaves the manager disconnected.
      When it was connected it emits `connectionChanged(false)` then
      `disconnected` and re-arms the monitor so that exactly a fresh interval
      runs; otherwise nothing is emitted and no interval changes. The
      connection id is kept either way. */
  lemma SocketClosedOutcome(c: Conn)
    requires MonitorInv(c)
    ensures var r := SocketClosed(c);
            && !r.conn.connected
            && r.conn.connectionId == c.connectionId
            && (c.client.Some? ==> !r.conn.client.value.socket)
            && (c.connected ==> r.out == [ConnectionChanged(false), DisconnectedEvent] && r.conn.live == {c.nextTimer})
            && (!c.connected ==> r.out == [] && r.conn.live == c.live)
            && r.conn.ddpIsOpen == c.ddpIsOpen
            && r.conn.connecting == c.connecting && r.conn.pending == c.pending
  {
    var c1 := if c.client.Some? then c.(client := Some(c.client.value.(socket := false))) else c;
    ConnectionChangeEdgeTriggered(c1, false);
  }

  /** Reporting the same state twice emits once. */
  lemma ConnectionChangeTwice(c: Conn, up: bool)
    ensures var first := ConnectionChange(c, up);
            ConnectionChange(first.conn, up) == Next(first.conn, [])
  {
  }

  /** A `connectionChanged(b)` event from any transition marks a real flip:
      the manager was in the other state before and is in state `b` after. */
  lemma ChangeEventsMarkFlips(c: Conn, input: Input, b: bool)
    requires ConnectionChanged(b) in Step(c, input).out
    ensures c.connected != b && Step(c, input).conn.connected == b
  {
    match input
    case DoClose => ConnectionChangeEdgeTriggered(c.(ddpIsOpen := false, client := None), false);
    case ClientConnected(session) =>
      var c1 := if c.client.Some? then c.(client := Some(c.client.value.(session := Some(session)))) else c;
      ConnectionChangeEdgeTriggered(c1, true);
    case ClientSocketClose =>
      var c1 := if c.client.Some? then c.(client := Some(c.client.value.(socket := false))) else c;
      ConnectionChangeEdgeTriggered(c1, false);
    case _ =>
  }

  /** The connection id is written only by a transition to connected, from
      the session the client just reported; nothing ever clears it. */
  lemma ConnectionIdOnlyOnConnect(c: Conn, input: Input)
    ensures var r := Step(c, input).conn;
            r.connectionId != c.connectionId ==>
              input.ClientConnected? && !c.connected && c.client.Some?
              && r.connectionId == Some(input.session)
    ensures c.connectionId.Some? ==> Step(c, input).conn.connectionId.Some?
  {
    match input
    case DoClose =>
    case ClientConnected(session) =>
    case ClientSocketClose =>
    case ConnectCallbackFired(i, err) =>
    case _ =>
  }

  // ---------------------------------------------------------------------------
  // close, connect, monitor tick, failures
  // ---------------------------------------------------------------------------

  /** A second `close()` changes nothing and emits nothing, so two closes
      emit at most one `disconnected`. */
  lemma CloseIdempotent(c: Conn)
    ensures var first := Close(c);
            var second := Close(first.conn);
            second == Next(first.conn, [])
            && multiset(first.out + second.out)[DisconnectedEvent] <= 1
  {
    var first := Close(c);
    assert first.out + [] == first.out;
  }

  /** `connect()` while a connect is in flight issues nothing new. */
  lemma ConnectWhileConnecting(c: Conn)
    requires c.connecting && c.client.Some?
    ensures Connect(c) == Next(c, [])
  {
  }

  /** The callback of `connect()` clears `connecting` on success and on
      error; on success the manager is connected, the session is open and
      the monitor runs a fresh interval. */
  lemma ConnectCallbackOutcome(c: Conn, i: nat, err: Option<string>)
    requires Inv(c) && i < |c.pending| && c.pending[i] == ConnectCallback
    ensures var r := Callback(c, i, err);
            && !r.conn.connecting
            && (err.Some? ==>
                  && r.out == [ConnectRejected(err.value)]
                  && r.conn == c.(pending := RemoveAt(c.pending, i), connecting := false))
            && (err.None? ==>
                  && r.out == [ConnectResolved]
                  && r.conn.connected && r.conn.ddpIsOpen
                  && r.conn.live == {c.nextTimer} && r.conn.monitor == Some(c.nextTimer)
                  && r.conn.pending == RemoveAt(c.pending, i)
                  && r.conn.client == c.client && r.conn.connectionId == c.connectionId)
  {
  }

  /** The callback of a `createClient` connect settles only that call: a
      failed reconnect started by the monitor becomes an `error` event, one
      started by `forceReconnect` rejects its promise; the connection flags
      are untouched. */
  lemma ReconnectCallbackOutcome(c: Conn, i: nat, err: Option<string>)
    requires i < |c.pending| && c.pending[i].ReconnectCallback?
    ensures var r := Callback(c, i, err);
            var origin := c.pending[i].origin;
            && r.conn == c.(pending := RemoveAt(c.pending, i))
            && (origin == ViaMonitor ==> r.out == (if err.Some? then [ErrorEvent(err.value)] else []))
            && (origin == ViaForceReconnect ==>
                  r.out == (if err.Some? then [ReconnectRejected(err.value)] else [ReconnectResolved]))
  {
  }

  /** A running monitor tick reconnects exactly when a client exists, the
      manager is not connected, the session is open and automatic
      reconnection is not disabled; otherwise it stops the interval. */
  lemma TickDecision(c: Conn)
    requires Inv(c)
    ensures c.live == {} ==> Tick(c) == Next(c, [])
    ensures var cond := c.client.Some? && !c.connected && c.ddpIsOpen && c.options.autoReconnect != Some(false);
            var r := Tick(c).conn;
            c.live != {} ==>
              && (cond ==> r.pending == c.pending + [ReconnectCallback(ViaMonitor)] && r.live == c.live)
              && (!cond ==> r.pending == c.pending && r.live == {})
    ensures var r := Tick(c).conn;
            && r.connected == c.connected && r.ddpIsOpen == c.ddpIsOpen
            && r.connecting == c.connecting && r.connectionId == c.connectionId
            && r.monitor == c.monitor && r.nextTimer == c.nextTimer
  {
  }

  /** A tick with no running interval does nothing; after a tick stopped
      the monitor, further ticks do nothing until it is re-armed. */
  lemma StoppedMonitorStaysQuiet(c: Conn)
    requires Inv(c) && c.live != {}
    requires !(c.client.Some? && !c.connected && c.ddpIsOpen && c.options.autoReconnect != Some(false))
    ensures Tick(Tick(c).conn) == Next(Tick(c).conn, [])
  {
  }

  // ---------------------------------------------------------------------------
  // Where the manager does not keep the stronger guarantees one might expect
  // ---------------------------------------------------------------------------

  /** `connect()` does not look at `connected`: called while connected it
      sets `connecting` too. */
  lemma ConnectWhileConnected(c: Conn)
    requires c.connected && !c.connecting
    ensures Connect(c).conn.connected && Connect(c).conn.connecting
  {
  }

  /** A successful `connect()` callback sets `connected` without any event;
      a `connected` event arriving afterwards is then swallowed and the
      connection id is not taken from the new session. */
  lemma SilentConnectCallback(c: Conn, i: nat, session: string)
    requires i < |c.pending| && c.pending[i] == ConnectCallback && !c.connected
    ensures var r := Callback(c, i, None);
            && r.conn.connected && r.out == [ConnectResolved]
            && SessionConnected(r.conn, session).out == []
            && SessionConnected(r.conn, session).conn.connectionId == c.connectionId
  {
  }

  /** Connected does not imply a connection id: a first `connect()` whose
      callback succeeds before the client's `connected` event leaves the
      manager connected with no id. */
  lemma ConnectedWithoutId(options: Options, listener: bool)
    ensures var c := Callback(Connect(Init(options, listener)).conn, 0, None).conn;
            c.connected && c.connectionId.None?
  {
  }

  /** The monitor also runs outside the reconnect situation it serves: the
      successful `connect()` callback arms it while connected, and `close()`
      of a connected manager re-arms it with the session closed. */
  lemma MonitorArmedOutsideReconnect(c: Conn, i: nat)
    requires MonitorInv(c)
    ensures i < |c.pending| && c.pending[i] == ConnectCallback ==>
              var r := Callback(c, i, None).conn;
              r.connected && r.ddpIsOpen && r.live == {c.nextTimer}
    ensures c.connected ==>
              var r := Close(c).conn;
              !r.connected && !r.ddpIsOpen && r.live == {c.nextTimer}
  {
  }

  /** `close()` reports a disconnect only when the manager counts as
      connected: from the disconnected state it emits nothing, however
      often it is called. */
  lemma CloseSilentWhenDisconnected(c: Conn)
    requires !c.connected
    ensures Close(c).out == [] && Close(Close(c).conn).out == []
  {
  }

  /** The client's `message` and `info` events are re-emitted verbatim and
      change nothing. */
  lemma ForwardedEvents(c: Conn, m: string)
    ensures Step(c, ClientMessage(m)) == Next(c, [MessageEvent(m)])
    ensures Step(c, ClientInfo(m)) == Next(c, [InfoEvent(m)])
  {
  }

  /** Only `close()` and a successful `connect()` callback write
      `ddpIsOpen`, the flag that lets the monitor reconnect. */
  lemma DdpIsOpenWrittenOnlyByCloseAndConnect(c: Conn, input: Input)
    ensures Step(c, input).conn.ddpIsOpen != c.ddpIsOpen ==>
              || input == DoClose
              || (&& input.ConnectCallbackFired? && input.err.None?
                  && input.index < |c.pending| && c.pending[input.index] == ConnectCallback)
  {
    match input
    case ClientConnected(session) => SessionConnectedOutcome(c, session);
    case ClientSocketClose =>
      var c1 := if c.client.Some? then c.(client := Some(c.client.value.(socket := false))) else c;
      ConnectionChangeEdgeTriggered(c1, false);
    case _ =>
  }

  /** A connect in flight survives `close()`: the next `connect()` builds a
      fresh client but issues no session connect, so its promise settles
      only if the old callback arrives. */
  lemma ConnectAfterCloseWaits(c: Conn)
    requires c.connecting
    ensures var closed := Close(c).conn;
            var r := Connect(closed);
            && closed.connecting && closed.pending == c.pending
            && r.out == [] && r.conn.pending == c.pending && r.conn.connecting
  {
  }

  // ---------------------------------------------------------------------------
  // A reconnect trace
  // ---------------------------------------------------------------------------

  /** Running a non-empty trace runs its first input from the current
      state and the rest from the state that leaves. */
  lemma RunCons(c: Conn, inputs: seq<Input>, head: Next, tail: Next)
    requires |inputs| > 0 && Step(c, inputs[0]) == head && Run(head.conn, inputs[1..]) == tail
    ensures Run(c, inputs) == Next(tail.conn, head.out + tail.out)
  {
  }

  /** Running `a` then `b` is running `a + b`: states chain and outputs
      concatenate. */
  lemma RunAppend(c: Conn, a: seq<Input>, b: seq<Input>)
    ensures var ra := Run(c, a);
            var rb := Run(ra.conn, b);
            Run(c, a + b) == Next(rb.conn, ra.out + rb.out)
  {
    FoldAppend(StepOutcome, c, a, b);
  }

  /** First part of the reconnect trace: connect and get connected. */
  lemma ReconnectStepsConnect(c0: Conn)
    requires c0 == Init(c0.options, c0.failedListener)
    ensures var s1 := Step(c0, DoConnect);
            var s2 := Step(s1.conn, ClientConnected("s1"));
            var s3 := Step(s2.conn, ConnectCallbackFired(0, None));
            && s1.out == [] && s2.out == [ConnectionChanged(true), ConnectedEvent]
            && s3.out == [ConnectResolved]
            && s3.conn.connected && s3.conn.ddpIsOpen && s3.conn.client.Some?
            && s3.conn.pending == [] && s3.conn.options == c0.options
  {
    var s1 := Connect(c0);
    assert s1.conn.pending == [ConnectCallback] && s1.conn.client.Some?;
    var s2 := SessionConnected(s1.conn, "s1");
    assert s2.conn.connected && s2.conn.pending == [ConnectCallback];
    assert Step(c0, DoConnect) == s1 && Step(s1.conn, ClientConnected("s1")) == s2;
  }

  /** The connecting half of the reconnect trace as a run. */
  lemma TraceConnect(c0: Conn)
    requires c0 == Init(c0.options, c0.failedListener)
    ensures var r := Run(c0, [DoConnect, ClientConnected("s1"), ConnectCallbackFired(0, None)]);
            && r.out == [ConnectionChanged(true), ConnectedEvent, ConnectResolved]
            && r.conn.connected && r.conn.ddpIsOpen && r.conn.client.Some?
            && r.conn.pending == [] && r.conn.options == c0.options
  {
    var inputs := [DoConnect, ClientConnected("s1"), ConnectCallbackFired(0, None)];
    ReconnectStepsConnect(c0);
    var s1 := Step(c0, DoConnect);
    var s2 := Step(s1.conn, ClientConnected("s1"));
    var s3 := Step(s2.conn, ConnectCallbackFired(0, None));
    var t3 := Next(s3.conn, []);
    var t2 := Next(t3.conn, s3.out + t3.out);
    var t1 := Next(t2.conn, s2.out + t2.out);
    assert inputs[3..] == [];
    RunCons(s2.conn, inputs[2..], s3, t3);
    assert inputs[2..][1..] == inputs[3..];
    RunCons(s1.conn, inputs[1..], s2, t2);
    assert inputs[1..][1..] == inputs[2..];
    RunCons(c0, inputs, s1, t1);
  }

  /** Second part of the reconnect trace: the socket closes and the monitor
      tick starts a reconnect. */
  lemma ReconnectStepsDrop(c3: Conn)
    requires c3.connected && c3.ddpIsOpen && c3.client.Some? && c3.pending == []
    requires c3.options.autoReconnect != Some(false)
    ensures var s4 := Step(c3, ClientSocketClose);
            var s5 := Step(s4.conn, MonitorTick);
            && s4.out == [ConnectionChanged(false), DisconnectedEvent] && s5.out == []
            && !s5.conn.connected && s5.conn.client.Some?
            && s5.conn.pending == [ReconnectCallback(ViaMonitor)]
  {
    var s4 := SocketClosed(c3);
    assert s4.conn.live != {} && !s4.conn.connected && s4.conn.client.Some? && s4.conn.ddpIsOpen;
    assert s4.conn.pending == [];
    assert Step(c3, ClientSocketClose) == s4;
    assert Step(s4.conn, MonitorTick) == Tick(s4.conn);
  }

  /** Third part of the reconnect trace: the new session is reported and
      the reconnect's callback arrives. */
  lemma ReconnectStepsResume(c5: Conn)
    requires !c5.connected && c5.client.Some? && c5.pending == [ReconnectCallback(ViaMonitor)]
    ensures var s6 := Step(c5, ClientConnected("s2"));
            var s7 := Step(s6.conn, ConnectCallbackFired(0, None));
            && s6.out == [ConnectionChanged(true), ConnectedEvent] && s7.out == []
            && s7.conn.connected && s7.conn.connectionId == Some("s2") && s7.conn.pending == []
  {
    var s6 := SessionConnected(c5, "s2");
    assert s6.conn.connected && s6.conn.connectionId == Some("s2");
    assert s6.conn.pending == [ReconnectCallback(ViaMonitor)];
    assert Step(c5, ClientConnected("s2")) == s6;
    assert Step(s6.conn, ConnectCallbackFired(0, None)) == Callback(s6.conn, 0, None);
  }

  /** The recovering half of the reconnect trace as a run. */
  lemma TraceRecover(c3: Conn)
    requires c3.connected && c3.ddpIsOpen && c3.client.Some? && c3.pending == []
    requires c3.options.autoReconnect != Some(false)
    ensures var r := Run(c3, [ClientSocketClose, MonitorTick, ClientConnected("s2"), ConnectCallbackFired(0, None)]);
            && r.out == [ConnectionChanged(false), DisconnectedEvent, ConnectionChanged(true), ConnectedEvent]
            && r.conn.connected && r.conn.connectionId == Some("s2") && r.conn.pending == []
  {
    var inputs := [ClientSocketClose, MonitorTick, ClientConnected("s2"), ConnectCallbackFired(0, None)];
    ReconnectStepsDrop(c3);
    var s4 := Step(c3, ClientSocketClose);
    var s5 := Step(s4.conn, MonitorTick);
    ReconnectStepsResume(s5.conn);
    var s6 := Step(s5.conn, ClientConnected("s2"));
    var s7 := Step(s6.conn, ConnectCallbackFired(0, None));
    var t7 := Next(s7.conn, []);
    var t6 := Next(t7.conn, s7.out + t7.out);
    var t5 := Next(t6.conn, s6.out + t6.out);
    var t4 := Next(t5.conn, s5.out + t5.out);
    assert inputs[4..] == [];
    RunCons(s6.conn, inputs[3..], s7, t7);
    assert inputs[3..][1..] == inputs[4..];
    RunCons(s5.conn, inputs[2..], s6, t6);
    assert inputs[2..][1..] == inputs[3..];
    RunCons(s4.conn, inputs[1..], s5, t5);
    assert inputs[1..][1..] == inputs[2..];
    RunCons(c3, inputs, s4, t4);
  }

  /** Connect, lose the socket, and let the monitor reconnect silently: the
      manager reports connected, disconnected and connected again, in order,
      and holds the new session's id. */
  lemma ReconnectTrace(options: Options, listener: bool)
    requires options.autoReconnect != Some(false)
    ensures var inputs := [DoConnect, ClientConnected("s1"), ConnectCallbackFired(0, None),
                           ClientSocketClose, MonitorTick, ClientConnected("s2"),
                           ConnectCallbackFired(0, None)];
            var r := Run(Init(options, listener), inputs);
            && r.out == [ConnectionChanged(true), ConnectedEvent, ConnectResolved,
                         ConnectionChanged(false), DisconnectedEvent,
                         ConnectionChanged(true), ConnectedEvent]
            && r.conn.connected && r.conn.connectionId == Some("s2") && r.conn.pending == []
  {
    var a := [DoConnect, ClientConnected("s1"), ConnectCallbackFired(0, None)];
    var b := [ClientSocketClose, MonitorTick, ClientConnected("s2"), ConnectCallbackFired(0, None)];
    var c0 := Init(options, listener);
    RunAppend(c0, a, b);
    TraceConnect(c0);
    TraceRecover(Run(c0, a).conn);
    assert a + b == [DoConnect, ClientConnected("s1"), ConnectCallbackFired(0, None),
                     ClientSocketClose, MonitorTick, ClientConnected("s2"),
                     ConnectCallbackFired(0, None)];
  }
}

=== FILE: time_sync.dfy ===
/** Clock synchronisation engine: estimates the offset between the local clock
    and a server clock from round-trip measurements.

    Times are exact reals. The asynchronous time source is modelled by the
    sequence of its answers: attempt `i` of a round records the local start
    time `t0`, the server time the source reported (absent when it gave none)
    and the local end time `t1`. */
module TimeSync {
  import opened Wrappers

  // ---------------------------------------------------------------------------
  // Options and their defaults
  // ---------------------------------------------------------------------------

  const DefaultSyncPeriod: real := 600000.0     // ten minutes in milliseconds
  const DefaultMinSyncQuality: real := 20.0     // 1000 / 50
  const DefaultMinTryCount: int := 3
  const DefaultMaxTryCount: int := 10
  const DefaultRetryWaitTime: real := 300.0
  const DefaultServerDelayTime: real := 0.0

  /** Bound a fresh measurement must beat when no (truthy) quality is held. */
  const UnsetQualityBound: real := 99990.0

  /** Options as the caller passes them; a field may be left out. */
  datatype RawOptions = RawOptions(
    syncPeriod: Option<real>,
    minSyncQuality: Option<real>,
    minTryCount: Option<int>,
    maxTryCount: Option<int>,
    retryWaitTime: Option<real>,
    serverDelayTime: Option<real>)

  /** Options after defaulting. */
  datatype Options = Options(
    syncPeriod: real,
    minSyncQuality: real,
    minTryCount: int,
    maxTryCount: int,
    retryWaitTime: real,
    serverDelayTime: real)

  /** JavaScript `v || d` on a number: an absent or zero value is falsy. */
  function OrReal(v: Option<real>, d: real): (r: real)
    ensures v.Some? && v.value != 0.0 ==> r == v.value
    ensures v.None? || v.value == 0.0 ==> r == d
  {
    if v.Some? && v.value != 0.0 then v.value else d
  }

  function OrInt(v: Option<int>, d: int): (r: int)
    ensures v.Some? && v.value != 0 ==> r == v.value
    ensures v.None? || v.value == 0 ==> r == d
  {
    if v.Some? && v.value != 0 then v.value else d
  }

  /** The constructor's option defaulting. */
  function Configure(raw: RawOptions): (o: Options)
    ensures o.syncPeriod != 0.0 && o.minSyncQuality != 0.0
    ensures o.minTryCount != 0 && o.maxTryCount != 0 && o.retryWaitTime != 0.0
    ensures raw.serverDelayTime.Some? ==> o.serverDelayTime == raw.serverDelayTime.value
    ensures raw.serverDelayTime.None? ==> o.serverDelayTime == 0.0
  {
    Options(
      OrReal(raw.syncPeriod, DefaultSyncPeriod),
      OrReal(raw.minSyncQuality, DefaultMinSyncQuality),
      OrInt(raw.minTryCount, DefaultMinTryCount),
      OrInt(raw.maxTryCount, DefaultMaxTryCount),
      OrReal(raw.retryWaitTime, DefaultRetryWaitTime),
      OrReal(raw.serverDelayTime, DefaultServerDelayTime))
  }

  /** The options as a caller would pass them explicitly. */
  function AsRaw(o: Options): RawOptions
  {
    RawOptions(Some(o.syncPeriod), Some(o.minSyncQuality), Some(o.minTryCount),
               Some(o.maxTryCount), Some(o.retryWaitTime), Some(o.serverDelayTime))
  }

  // ---------------------------------------------------------------------------
  // Held state
  // ---------------------------------------------------------------------------

  /** `_syncDiff`, `_syncQuality` (null = None) and `_lastSyncTime`. */
  datatype Clock = Clock(diff: real, quality: Option<real>, lastSyncTime: real)

  const InitialClock: Clock := Clock(0.0, None, 0.0)

  /** `currentTime()`: the local time shifted by the held offset. */
  function CurrentTime(c: Clock, localTime: real): (t: real)
  {
    localTime + c.diff
  }

  /** `isGood()` as written: the held quality must be truthy, so a quality of
      exactly zero is reported as not good. */
  predicate IsGood(o: Options, c: Clock)
  {
    c.quality.Some? && c.quality.value != 0.0 && c.quality.value < o.minSyncQuality
  }

  /** `isGood()` as evidently intended: a quality is held and it is below the
      threshold. */
  predicate IsGoodIntended(o: Options, c: Clock)
  {
    c.quality.Some? && c.quality.value < o.minSyncQuality
  }

  /** Outcome of `maybeTriggerSync`: whether a round is scheduled, and the
      clock after the trigger time has been recorded. */
  datatype Trigger = Trigger(fire: bool, clock: Clock)

  /** `maybeTriggerSync` evaluated at local time `now`. */
  function MaybeTriggerSync(o: Options, c: Clock, now: real): (t: Trigger)
    ensures t.fire <==> now - c.lastSyncTime > o.syncPeriod
    ensures t.fire ==> t.clock.lastSyncTime == now
    ensures t.clock.diff == c.diff && t.clock.quality == c.quality
    ensures !t.fire ==> t.clock == c
  {
    if now - c.lastSyncTime > o.syncPeriod then Trigger(true, c.(lastSyncTime := now))
    else Trigger(false, c)
  }

  // ---------------------------------------------------------------------------
  // One measurement
  // ---------------------------------------------------------------------------

  /** One call of the time source: local start, reported server time, local end. */
  datatype Attempt = Attempt(t0: real, server: Option<real>, t1: real)

  /** A usable measurement: estimated offset and half the round trip. */
  datatype Measurement = Measurement(diff: real, quality: real)

  /** JavaScript truthiness of the reported server time. */
  predicate Answered(a: Attempt)
  {
    a.server.Some? && a.server.value != 0.0
  }

  /** `doSync`: a truthy server time gives a measurement, anything else none. */
  function Measure(a: Attempt, serverDelay: real): (m: Option<Measurement>)
    ensures m.Some? <==> Answered(a)
    ensures m.Some? ==> 2.0 * m.value.quality == a.t1 - a.t0
    // the offset added to the estimated server-side instant gives the reported time
    ensures m.Some? ==> m.value.diff + (a.t0 + m.value.quality + serverDelay) == a.server.value
  {
    if Answered(a) then
      var transport := a.t1 - a.t0;
      var calcLocalTime := a.t0 + transport / 2.0 + serverDelay;
      Some(Measurement(a.server.value - calcLocalTime, transport / 2.0))
    else None
  }

  function AsSeq(m: Option<Measurement>): seq<Measurement>
  {
    if m.Some? then [m.value] else []
  }

  /** The measurements collected from `source`, in order (`syncResults`). */
  function Measurements(source: seq<Attempt>, serverDelay: real): (ms: seq<Measurement>)
    ensures |ms| <= |source|
  {
    if |source| == 0 then []
    else Measurements(source[..|source| - 1], serverDelay)
         + AsSeq(Measure(source[|source| - 1], serverDelay))
  }

  /** No measurement is collected exactly when no attempt was answered. */
  lemma {:induction false} MeasurementsEmpty(source: seq<Attempt>, serverDelay: real)
    ensures |Measurements(source, serverDelay)| == 0 <==> forall i :: 0 <= i < |source| ==> !Answered(source[i])
  {
    if |source| > 0 {
      var n := |source| - 1;
      MeasurementsEmpty(source[..n], serverDelay);
      assert forall i :: 0 <= i < n ==> source[..n][i] == source[i];
    }
  }

  // ---------------------------------------------------------------------------
  // Selecting the best measurement
  // ---------------------------------------------------------------------------

  /** Index `k` holds the first measurement of least quality. */
  ghost predicate IsFirstMin(ms: seq<Measurement>, k: nat)
  {
    && k < |ms|
    && (forall j :: 0 <= j < |ms| ==> ms[k].quality <= ms[j].quality)
    && (forall j :: 0 <= j < k ==> ms[k].quality < ms[j].quality)
  }

  /** Underscore's `_.min` by quality: a left fold that replaces the current
      choice only on a strictly smaller quality. */
  function BestIndex(ms: seq<Measurement>): (k: nat)
    requires |ms| > 0
    ensures k < |ms|
  {
    if |ms| == 1 then 0
    else
      var k := BestIndex(ms[..|ms| - 1]);
      if ms[|ms| - 1].quality < ms[k].quality then |ms| - 1 else k
  }

  /** `BestIndex` finds the first measurement of least quality. */
  lemma {:induction false} BestIndexIsFirstMin(ms: seq<Measurement>)
    requires |ms| > 0
    ensures IsFirstMin(ms, BestIndex(ms))
  {
    if |ms| > 1 {
      var init := ms[..|ms| - 1];
      BestIndexIsFirstMin(init);
      assert forall j :: 0 <= j < |init| ==> init[j] == ms[j];
    }
  }

  function Best(ms: seq<Measurement>): (m: Measurement)
    requires |ms| > 0
  {
    ms[BestIndex(ms)]
  }

  // ---------------------------------------------------------------------------
  // The synchronisation round
  // ---------------------------------------------------------------------------

  /** The loop stops after attempt `t`: it is past `minTryCount` and the best
      measurement of attempts `0..t` is below the quality threshold. */
  predicate StopsAt(o: Options, source: seq<Attempt>, t: nat)
    requires t < |source|
  {
    var ms := Measurements(source[..t + 1], o.serverDelayTime);
    t >= o.minTryCount && |ms| > 0 && Best(ms).quality < o.minSyncQuality
  }

  function Max(a: int, b: int): int
  {
    if a < b then b else a
  }

  function Min(a: int, b: int): int
  {
    if a < b then a else b
  }

  /** State of the attempt loop when it ends: the measurements collected, the
      early-accepted measurement if any, and how many attempts were made. */
  datatype LoopResult = LoopResult(results: seq<Measurement>, early: Option<Measurement>, calls: nat)

  /** The `for (tryCount ...)` loop from attempt `tryCount` on, with the
      measurements collected so far in `results`. */
  function TryLoop(o: Options, source: seq<Attempt>, tryCount: nat, results: seq<Measurement>): (r: LoopResult)
    requires o.maxTryCount <= |source| && tryCount <= |source|
    requires results == Measurements(source[..tryCount], o.serverDelayTime)
    ensures tryCount <= r.calls <= Max(o.maxTryCount, tryCount) && r.calls <= |source|
    ensures r.results == Measurements(source[..r.calls], o.serverDelayTime)
    ensures r.early.None? ==> r.calls == Max(o.maxTryCount, tryCount)
    ensures r.early.Some? ==> tryCount < r.calls && |r.results| > 0 && r.early.value == Best(r.results)
    ensures r.early.Some? ==> r.calls - 1 >= o.minTryCount && r.early.value.quality < o.minSyncQuality
    decreases o.maxTryCount - tryCount
  {
    if tryCount >= o.maxTryCount then LoopResult(results, None, tryCount)
    else
      MeasurementsStep(source, tryCount, o.serverDelayTime);
      var results' := results + AsSeq(Measure(source[tryCount], o.serverDelayTime));
      if tryCount >= o.minTryCount && |results'| > 0 && Best(results').quality < o.minSyncQuality
      then LoopResult(results', Some(Best(results')), tryCount + 1)
      else TryLoop(o, source, tryCount + 1, results')
  }

  /** When the loop accepts early, the attempt it stopped after is a
      stopping point. */
  lemma {:induction false} TryLoopStopsAtStop(o: Options, source: seq<Attempt>, tryCount: nat, results: seq<Measurement>)
    requires o.maxTryCount <= |source| && tryCount <= |source|
    requires results == Measurements(source[..tryCount], o.serverDelayTime)
    ensures var r := TryLoop(o, source, tryCount, results);
            r.early.Some? ==> StopsAt(o, source, r.calls - 1)
    decreases o.maxTryCount - tryCount
  {
    if tryCount < o.maxTryCount {
      MeasurementsStep(source, tryCount, o.serverDelayTime);
      var results' := results + AsSeq(Measure(source[tryCount], o.serverDelayTime));
      if !(tryCount >= o.minTryCount && |results'| > 0 && Best(results').quality < o.minSyncQuality) {
        TryLoopStopsAtStop(o, source, tryCount + 1, results');
      }
    }
  }

  /** No attempt before the one the loop stopped after (or, without an
      early accept, no attempt at all) is a stopping point. */
  lemma {:induction false} TryLoopSkipsNoStop(o: Options, source: seq<Attempt>, tryCount: nat, results: seq<Measurement>, t: nat)
    requires o.maxTryCount <= |source| && tryCount <= |source|
    requires results == Measurements(source[..tryCount], o.serverDelayTime)
    requires var r := TryLoop(o, source, tryCount, results);
             tryCount <= t < r.calls && (r.early.None? || t < r.calls - 1)
    ensures !StopsAt(o, source, t)
    decreases o.maxTryCount - tryCount
  {
    MeasurementsStep(source, tryCount, o.serverDelayTime);
    var results' := results + AsSeq(Measure(source[tryCount], o.serverDelayTime));
    if t > tryCount {
      TryLoopSkipsNoStop(o, source, tryCount + 1, results', t);
    }
  }

  /** One more attempt appends its measurement, if any, to the collected ones. */
  lemma MeasurementsStep(source: seq<Attempt>, t: nat, serverDelay: real)
    requires t < |source|
    ensures Measurements(source[..t + 1], serverDelay)
            == Measurements(source[..t], serverDelay) + AsSeq(Measure(source[t], serverDelay))
  {
    assert source[..t + 1][..t] == source[..t];
  }

  /** `this._syncQuality || 99990`: a held quality that is null or zero
      counts as the fixed bound. */
  function HeldBound(q: Option<real>): (bound: real)
  {
    if q.Some? && q.value != 0.0 then q.value else UnsetQualityBound
  }

  /** Outcome of `syncTime`: the clock afterwards, the boolean the round
      resolves to, whether a measurement was accepted, how many times the
      time source was called, and whether the invalidation callback ran. */
  datatype Round = Round(clock: Clock, good: bool, accepted: bool, calls: nat, invalidated: bool)

  /** The measurement the round selects: the early-accepted one, or else the
      best of all attempts when it beats the held quality. */
  function Selected(o: Options, c: Clock, loop: LoopResult): (m: Option<Measurement>)
  {
    if loop.early.Some? then loop.early
    else if |loop.results| > 0 && Best(loop.results).quality < HeldBound(c.quality)
    then Some(Best(loop.results))
    else None
  }

  /** `syncTime`. `finish` is the local time read when a result is stored;
      `hasCallback` says whether an invalidation callback was supplied. */
  function SyncTime(o: Options, c: Clock, source: seq<Attempt>, finish: real, hasCallback: bool): (r: Round)
    requires o.maxTryCount <= |source|
    ensures Min(Max(o.maxTryCount, 0), Max(o.minTryCount + 1, 0)) <= r.calls <= Max(o.maxTryCount, 0)
    ensures r.good ==> r.accepted
    ensures r.good ==> r.clock.quality.Some? && r.clock.quality.value < o.minSyncQuality
    ensures !r.accepted ==> r.clock == c && !r.good
    ensures r.accepted ==> r.clock.lastSyncTime == finish && r.clock.quality.Some?
    ensures r.invalidated <==> r.accepted && hasCallback
  {
    var loop := TryLoop(o, source, 0, []);
    var selected := Selected(o, c, loop);
    if selected.Some? then
      Round(Clock(selected.value.diff, Some(selected.value.quality), finish),
            loop.early.Some?, true, loop.calls, hasCallback)
    else Round(c, false, false, loop.calls, false)
  }
}

=== FILE: time_sync_properties.dfy ===
/** Properties of the clock synchronisation round that relate several
    operations or characterise `syncTime` independently of its definition. */
module TimeSyncProperties {
  import opened Wrappers
  import opened TimeSync

  // ---------------------------------------------------------------------------
  // Options
  // ---------------------------------------------------------------------------

  /** With no options at all the documented defaults apply. */
  lemma ConfigureDefaults()
    ensures Configure(RawOptions(None, None, None, None, None, None))
            == Options(600000.0, 20.0, 3, 10, 300.0, 0.0)
  {
  }

  /** Defaulting is idempotent: passing the defaulted options back in
      changes nothing, because every defaulted field is already truthy. */
  lemma ConfigureIdempotent(raw: RawOptions)
    ensures Configure(AsRaw(Configure(raw))) == Configure(raw)
  {
  }

  // ---------------------------------------------------------------------------
  // Selection of the best measurement
  // ---------------------------------------------------------------------------

  /** The first least-quality measurement is unique, so `BestIndex` is fully
      determined by `IsFirstMin`: ties go to the first one seen. */
  lemma FirstMinUnique(ms: seq<Measurement>, i: nat, j: nat)
    requires IsFirstMin(ms, i) && IsFirstMin(ms, j)
    ensures i == j
  {
    assert ms[i].quality == ms[j].quality;
  }

  /** Every collected measurement comes from one answered attempt. */
  lemma {:induction false} MeasurementsFromAttempts(source: seq<Attempt>, serverDelay: real, k: nat)
    requires k < |Measurements(source, serverDelay)|
    ensures exists i :: 0 <= i < |source| && Measure(source[i], serverDelay) == Some(Measurements(source, serverDelay)[k])
  {
    var n := |source| - 1;
    var prefix := Measurements(source[..n], serverDelay);
    if k < |prefix| {
      MeasurementsFromAttempts(source[..n], serverDelay, k);
      var i :| 0 <= i < n && Measure(source[..n][i], serverDelay) == Some(prefix[k]);
      assert source[..n][i] == source[i];
    } else {
      assert Measure(source[n], serverDelay) == Some(Measurements(source, serverDelay)[k]);
    }
  }

  /** Conversely, every answered attempt contributes its measurement. */
  lemma {:induction false} MeasurementsCollectAnswered(source: seq<Attempt>, serverDelay: real, i: nat)
    requires i < |source| && Answered(source[i])
    ensures Measure(source[i], serverDelay).Some?
    ensures Measure(source[i], serverDelay).value in Measurements(source, serverDelay)
  {
    var n := |source| - 1;
    if i < n {
      MeasurementsCollectAnswered(source[..n], serverDelay, i);
      assert source[..n][i] == source[i];
    }
  }

  // ---------------------------------------------------------------------------
  // The round
  // ---------------------------------------------------------------------------

  /** `syncTime` resolves true exactly when some attempt index below
      `maxTryCount` is a stopping point: at or past `minTryCount`, with the
      best measurement so far below `minSyncQuality`. The round then stops at
      the first such index. */
  lemma RoundGoodIffStops(o: Options, c: Clock, source: seq<Attempt>, finish: real, cb: bool)
    requires o.maxTryCount <= |source|
    ensures SyncTime(o, c, source, finish, cb).good
            <==> exists t :: 0 <= t < o.maxTryCount && StopsAt(o, source, t)
    ensures SyncTime(o, c, source, finish, cb).good ==>
              var n := SyncTime(o, c, source, finish, cb).calls;
              0 < n && StopsAt(o, source, n - 1)
              && forall t :: 0 <= t < n - 1 ==> !StopsAt(o, source, t)
  {
    assert source[..0] == [];
    var loop := TryLoop(o, source, 0, []);
    TryLoopStopsAtStop(o, source, 0, []);
    forall t | 0 <= t < loop.calls && (loop.early.None? || t < loop.calls - 1)
      ensures !StopsAt(o, source, t)
    {
      TryLoopSkipsNoStop(o, source, 0, [], t);
    }
  }

  /** Without an early accept the round made every allowed attempt and
      stores the best measurement exactly when it beats the held quality
      (a held null or zero quality counting as 99990). */
  lemma FallbackRule(o: Options, c: Clock, source: seq<Attempt>, finish: real, cb: bool)
    requires o.maxTryCount <= |source|
    ensures var r := SyncTime(o, c, source, finish, cb);
            var ms := Measurements(source[..Max(o.maxTryCount, 0)], o.serverDelayTime);
            !r.good ==>
              && r.calls == Max(o.maxTryCount, 0)
              && (r.accepted <==> |ms| > 0 && Best(ms).quality < HeldBound(c.quality))
              && (r.accepted ==> r.clock == Clock(Best(ms).diff, Some(Best(ms).quality), finish))
  {
  }

  /** When the early path fires, the stored measurement is the best one of
      the attempts made so far and lies below the quality threshold. */
  lemma EarlyAcceptStoresBest(o: Options, c: Clock, source: seq<Attempt>, finish: real, cb: bool)
    requires o.maxTryCount <= |source|
    ensures var r := SyncTime(o, c, source, finish, cb);
            var ms := Measurements(source[..r.calls], o.serverDelayTime);
            r.good ==>
              && |ms| > 0
              && r.clock == Clock(Best(ms).diff, Some(Best(ms).quality), finish)
              && Best(ms).quality < o.minSyncQuality
              && r.calls - 1 >= o.minTryCount
  {
  }

  /** A round in which no attempt got a truthy server time resolves false
      and leaves the held offset, quality and sync time untouched, without
      running the invalidation callback. */
  lemma NoAnswerLeavesClock(o: Options, c: Clock, source: seq<Attempt>, finish: real, cb: bool)
    requires o.maxTryCount <= |source|
    requires forall i :: 0 <= i < |source| ==> !Answered(source[i])
    ensures var r := SyncTime(o, c, source, finish, cb);
            !r.good && !r.accepted && r.clock == c && !r.invalidated
  {
    var loop := TryLoop(o, source, 0, []);
    assert forall i :: 0 <= i < loop.calls ==> source[..loop.calls][i] == source[i];
    MeasurementsEmpty(source[..loop.calls], o.serverDelayTime);
  }

  /** After any round the held quality is unchanged, or below
      `minSyncQuality`, or below the previously held quality (null or zero
      counting as 99990). */
  lemma RoundQualityBound(o: Options, c: Clock, source: seq<Attempt>, finish: real, cb: bool)
    requires o.maxTryCount <= |source|
    ensures var q := SyncTime(o, c, source, finish, cb).clock.quality;
            q == c.quality
            || (q.Some? && (q.value < o.minSyncQuality || q.value < HeldBound(c.quality)))
  {
  }

  /** The early path does not compare with the held quality: with
      constructor options `minTryCount = 1` and `maxTryCount = 2`, a round
      whose two answers both have quality 5 replaces a held quality of 1. */
  lemma EarlyAcceptCanWorsenQuality()
    ensures var o := Configure(RawOptions(None, None, Some(1), Some(2), None, None));
            var held := Clock(7.0, Some(1.0), 50.0);
            var source := [Attempt(100.0, Some(500.0), 110.0), Attempt(200.0, Some(600.0), 210.0)];
            var r := SyncTime(o, held, source, 220.0, false);
            r.good && r.clock.quality == Some(5.0)
  {
    var o := Configure(RawOptions(None, None, Some(1), Some(2), None, None));
    var held := Clock(7.0, Some(1.0), 50.0);
    var source := [Attempt(100.0, Some(500.0), 110.0), Attempt(200.0, Some(600.0), 210.0)];
    var m := Measurement(395.0, 5.0);
    TwoAnswerRoundStopsEarly(o, held, source, m, m, 220.0);
  }

  /** Whichever path accepted it, the stored result is the best
      measurement of the attempts the round made. */
  lemma AcceptedIsBestOfRound(o: Options, c: Clock, source: seq<Attempt>, finish: real, cb: bool)
    requires o.maxTryCount <= |source|
    ensures var r := SyncTime(o, c, source, finish, cb);
            var ms := Measurements(source[..r.calls], o.serverDelayTime);
            r.accepted ==> |ms| > 0 && r.clock == Clock(Best(ms).diff, Some(Best(ms).quality), finish)
  {
  }

  /** The stored result is the measurement of one attempt made in this
      round. */
  lemma AcceptedMeasuredByAttempt(o: Options, c: Clock, source: seq<Attempt>, finish: real, cb: bool)
    requires o.maxTryCount <= |source|
    ensures var r := SyncTime(o, c, source, finish, cb);
            r.accepted ==>
              exists i :: 0 <= i < r.calls
                && Measure(source[i], o.serverDelayTime) == Some(Measurement(r.clock.diff, r.clock.quality.value))
  {
    var r := SyncTime(o, c, source, finish, cb);
    if r.accepted {
      AcceptedIsBestOfRound(o, c, source, finish, cb);
      var prefix := source[..r.calls];
      var ms := Measurements(prefix, o.serverDelayTime);
      MeasurementsFromAttempts(prefix, o.serverDelayTime, BestIndex(ms));
      var i :| 0 <= i < |prefix| && Measure(prefix[i], o.serverDelayTime) == Some(Best(ms));
      assert prefix[i] == source[i];
    }
  }

  /** The stored result comes from one attempt made in this round; at that
      attempt's estimated server-side instant, `currentTime` equals the
      server time it reported. */
  lemma AcceptedFromAttempt(o: Options, c: Clock, source: seq<Attempt>, finish: real, cb: bool)
    requires o.maxTryCount <= |source|
    ensures var r := SyncTime(o, c, source, finish, cb);
            r.accepted ==>
              exists i :: 0 <= i < r.calls && Answered(source[i])
                && r.clock.quality == Some((source[i].t1 - source[i].t0) / 2.0)
                && CurrentTime(r.clock, source[i].t0 + (source[i].t1 - source[i].t0) / 2.0 + o.serverDelayTime)
                   == source[i].server.value
  {
    var r := SyncTime(o, c, source, finish, cb);
    if r.accepted {
      AcceptedMeasuredByAttempt(o, c, source, finish, cb);
      var i :| 0 <= i < r.calls
               && Measure(source[i], o.serverDelayTime) == Some(Measurement(r.clock.diff, r.clock.quality.value));
      AttemptAnchorsClock(source[i], o.serverDelayTime, r.clock);
    }
  }

  /** A clock holding an attempt's measurement reads that attempt's server
      time at its estimated server-side instant. */
  lemma AttemptAnchorsClock(a: Attempt, serverDelay: real, c: Clock)
    requires Measure(a, serverDelay).Some?
    requires c.diff == Measure(a, serverDelay).value.diff
    requires c.quality == Some(Measure(a, serverDelay).value.quality)
    ensures Answered(a) && c.quality == Some((a.t1 - a.t0) / 2.0)
    ensures CurrentTime(c, a.t0 + (a.t1 - a.t0) / 2.0 + serverDelay) == a.server.value
  {
  }

  // ---------------------------------------------------------------------------
  // isGood
  // ---------------------------------------------------------------------------

  /** As written, `isGood` agrees with the intended check except when the
      held quality is exactly zero. */
  lemma IsGoodDiffersOnlyAtZero(o: Options, c: Clock)
    ensures IsGood(o, c) <==> IsGoodIntended(o, c) && c.quality != Some(0.0)
  {
  }

  /** A round that resolves true leaves the engine good by the intended
      check. */
  lemma GoodRoundIsGoodIntended(o: Options, c: Clock, source: seq<Attempt>, finish: real, cb: bool)
    requires o.maxTryCount <= |source|
    ensures SyncTime(o, c, source, finish, cb).good ==> IsGoodIntended(o, SyncTime(o, c, source, finish, cb).clock)
  {
  }

  /** As written, a round with instantaneous round trips resolves true yet
      `isGood()` then reports false, because the stored quality 0 is falsy.
      The options are ones the constructor produces (`minTryCount = 1`,
      `maxTryCount = 2`, the rest defaulted). */
  lemma ZeroQualityRoundNotGood()
    ensures var o := Configure(RawOptions(None, None, Some(1), Some(2), None, None));
            var source := [Attempt(5.0, Some(105.0), 5.0), Attempt(6.0, Some(106.0), 6.0)];
            var r := SyncTime(o, InitialClock, source, 7.0, false);
            r.good && r.clock.quality == Some(0.0) && !IsGood(o, r.clock)
  {
    var o := Configure(RawOptions(None, None, Some(1), Some(2), None, None));
    var source := [Attempt(5.0, Some(105.0), 5.0), Attempt(6.0, Some(106.0), 6.0)];
    var m := Measurement(100.0, 0.0);
    TwoAnswerRoundStopsEarly(o, InitialClock, source, m, m, 7.0);
  }

  /** With `minTryCount = 1` and `maxTryCount = 2`, a round whose two
      attempts measure `m0` and `m1`, the better one below the threshold,
      stops after the second attempt and stores the first least one. */
  lemma TwoAnswerRoundStopsEarly(o: Options, c: Clock, source: seq<Attempt>, m0: Measurement, m1: Measurement, finish: real)
    requires o.minTryCount == 1 && o.maxTryCount == 2 && |source| == 2
    requires Measure(source[0], o.serverDelayTime) == Some(m0)
    requires Measure(source[1], o.serverDelayTime) == Some(m1)
    requires m0.quality < o.minSyncQuality || m1.quality < o.minSyncQuality
    ensures var r := SyncTime(o, c, source, finish, false);
            var best := if m1.quality < m0.quality then m1 else m0;
            r.good && r.calls == 2 && r.clock == Clock(best.diff, Some(best.quality), finish)
  {
    assert source[..0] == [];
    assert source[..1][..0] == [];
    assert Measurements(source[..1], o.serverDelayTime) == [m0];
    assert source[..2] == source;
    assert source[..2][..1] == source[..1];
    assert Measurements(source[..2], o.serverDelayTime) == [m0, m1];
    assert !StopsAt(o, source, 0);
    assert StopsAt(o, source, 1);
    RoundGoodIffStops(o, c, source, finish, false);
    EarlyAcceptStoresBest(o, c, source, finish, false);
  }

  // ---------------------------------------------------------------------------
  // maybeTriggerSync
  // ---------------------------------------------------------------------------

  /** Recording the trigger time at once means a second check at the same
      instant does not schedule another round (for a non-negative period). */
  lemma TriggerDoesNotRepeat(o: Options, c: Clock, now: real)
    requires o.syncPeriod >= 0.0
    ensures MaybeTriggerSync(o, c, now).fire ==>
              !MaybeTriggerSync(o, MaybeTriggerSync(o, c, now).clock, now).fire
  {
  }

  /** A negative period, which the constructor keeps because it is truthy,
      fires on every check made no earlier than the last sync time. */
  lemma NegativePeriodAlwaysFires(o: Options, c: Clock, now: real)
    requires o.syncPeriod < 0.0 && now >= c.lastSyncTime
    ensures MaybeTriggerSync(o, c, now).fire
    ensures MaybeTriggerSync(o, MaybeTriggerSync(o, c, now).clock, now).fire
  {
  }

  /** After a round stored a result at `finish`, the next trigger fires
      exactly when more than `syncPeriod` has passed since `finish`. */
  lemma TriggerAfterAcceptedRound(o: Options, c: Clock, source: seq<Attempt>, finish: real, cb: bool, now: real)
    requires o.maxTryCount <= |source|
    requires SyncTime(o, c, source, finish, cb).accepted
    ensures MaybeTriggerSync(o, SyncTime(o, c, source, finish, cb).clock, now).fire
            <==> now - finish > o.syncPeriod
  {
  }

  // ---------------------------------------------------------------------------
  // Concrete scenarios
  // ---------------------------------------------------------------------------

  /** With `minTryCount = 1`, `maxTryCount = 3`, `minSyncQuality = 5` and
      round-trip qualities 20, 3, 15, the second attempt is accepted early:
      the source is called twice and the round resolves true. */
  lemma ScenarioEarlyAccept()
    ensures var o := Options(600000.0, 5.0, 1, 3, 300.0, 0.0);
            var source := [Attempt(0.0, Some(1000.0), 40.0),
                           Attempt(100.0, Some(1200.0), 106.0),
                           Attempt(200.0, Some(1300.0), 230.0)];
            var r := SyncTime(o, InitialClock, source, 300.0, true);
            r.good && r.calls == 2 && r.clock == Clock(1097.0, Some(3.0), 300.0) && r.invalidated
  {
    var o := Options(600000.0, 5.0, 1, 3, 300.0, 0.0);
    var source := [Attempt(0.0, Some(1000.0), 40.0),
                   Attempt(100.0, Some(1200.0), 106.0),
                   Attempt(200.0, Some(1300.0), 230.0)];
    var m0 := Measurement(980.0, 20.0);
    var m1 := Measurement(1097.0, 3.0);
    assert source[..0] == [];
    assert source[..1][..0] == [];
    assert Measurements(source[..1], 0.0) == [m0];
    assert source[..2][..1] == source[..1];
    assert Measurements(source[..2], 0.0) == [m0, m1];
    assert BestIndex([m0, m1]) == 1;
    assert !StopsAt(o, source, 0);
    assert StopsAt(o, source, 1);
    RoundGoodIffStops(o, InitialClock, source, 300.0, true);
    EarlyAcceptStoresBest(o, InitialClock, source, 300.0, true);
  }

  /** An ideal network (no round-trip time, server 100 ahead) with
      `minSyncQuality = 10` and the default try counts: the round resolves
      true after four calls with offset 100. */
  lemma ScenarioIdealNetwork(t: seq<real>)
    requires |t| == 10
    requires forall i :: 0 <= i < 10 ==> t[i] != -100.0
    ensures var o := Configure(RawOptions(None, Some(10.0), None, None, None, None));
            var source := seq(10, i requires 0 <= i < 10 => Attempt(t[i], Some(t[i] + 100.0), t[i]));
            var r := SyncTime(o, InitialClock, source, 0.0, false);
            r.good && r.calls == 4 && r.clock.diff == 100.0
  {
    var o := Configure(RawOptions(None, Some(10.0), None, None, None, None));
    var source := seq(10, i requires 0 <= i < 10 => Attempt(t[i], Some(t[i] + 100.0), t[i]));
    var prefix := source[..4];
    var ms := Measurements(prefix, 0.0);
    assert Answered(prefix[3]);
    MeasurementsEmpty(prefix, 0.0);
    var k := BestIndex(ms);
    MeasurementsFromAttempts(prefix, 0.0, k);
    assert StopsAt(o, source, 3);
    RoundGoodIffStops(o, InitialClock, source, 0.0, false);
    AcceptedFromAttempt(o, InitialClock, source, 0.0, false);
  }
}

=== FILE: traces.dfy ===
/** Runs of a deterministic transition system: a step function applied to a
    sequence of inputs, with the outputs of every step collected in order. */
module Traces {
  /** The state reached and the outputs produced, in order. */
  datatype Outcome<S, O> = Outcome(state: S, out: seq<O>)

  /** Applies `step` to each input in turn, starting from `s`. */
  function Fold<S, I, O>(step: (S, I) -> Outcome<S, O>, s: S, inputs: seq<I>): (r: Outcome<S, O>)
    ensures |inputs| == 0 ==> r == Outcome(s, [])
    decreases |inputs|
  {
    if |inputs| == 0 then Outcome(s, [])
    else
      var first := step(s, inputs[0]);
      var rest := Fold(step, first.state, inputs[1..]);
      Outcome(rest.state, first.out + rest.out)
  }

  /** Running `a + b` is running `a`, then `b` from where `a` ended, with
      the outputs concatenated. */
  lemma {:induction false} FoldAppend<S, I, O>(step: (S, I) -> Outcome<S, O>, s: S, a: seq<I>, b: seq<I>)
    ensures var ra := Fold(step, s, a);
            var rb := Fold(step, ra.state, b);
            Fold(step, s, a + b) == Outcome(rb.state, ra.out + rb.out)
    decreases |a|
  {
    if |a| == 0 {
      assert a + b == b;
    } else {
      var first := step(s, a[0]);
      FoldAppend(step, first.state, a[1..], b);
      assert (a + b)[0] == a[0];
      assert (a + b)[1..] == a[1..] + b;
      var ra := Fold(step, first.state, a[1..]);
      var rb := Fold(step, ra.state, b);
      assert first.out + (ra.out + rb.out) == (first.out + ra.out) + rb.out;
    }
  }
}

=== FILE: wrappers.dfy ===
/** An optional value, shared by the clock-synchronisation and connector
    models. */
module Wrappers {

  /** A value that may be absent (JavaScript `null` / `undefined`). */
  datatype Option<+T> = None | Some(value: T) {

    /** The wrapped value, or `default` when absent. */
    function GetOr(default: T): (r: T)
      ensures Some? ==> r == value
      ensures None? ==> r == default
    {
      match this
      case Some(v) => v
      case None => default
    }
  }
}
